=== FILE: README.md ===
# Solana Price Clash — a Dafny model of the game core

Solana Price Clash is a browser mini-game: the player bets that the SOL price
will go UP or DOWN over a 10-second round. Wins build a streak, and the streak
sets a points multiplier (1x to 5x). Statistics are kept and persisted, and a
leaderboard keeps the top 100 entries.

This project models the client-side game store and the rules the React
components and hooks apply around it. Every operation is a pure function over
immutable records:

- `Scoring`: `getMultiplier` and the 100-point base value.
- `Stats`: the `GameStats` record and `updateStats`. Also an independent reading of the statistics as a function of the win/loss history.
- `Leaderboard`: `addToLeaderboard`, a stable descending sort by points truncated to 100 entries.
- `GameStore`: the store record and every store action: raw setters, `startGame`, `endGame`, `resetGame`, `updateStats`, `addToLeaderboard`, the two toggles and the `partialize` projection. It also holds the store as a transition system over an `Action` type.
- `GameContainer`: the round resolution rule (`handleTimeUp`), the displayed-price and live-status selection, and the panel each phase renders.
- `GameTimer`: one run of the countdown effect, the urgency flag, a method that runs a whole countdown, and the live "winning" indicator.
- `BettingButtons`: the click guard, the points preview and the multiplier banner.
- `GameResult`: the values the result panel computes.
- `PriceFeed`: the polled feed's consecutive-failure state machine, and the simulated random walk (floor, 61-point history, re-anchoring).
- `PriceRoute`: the price endpoint's one-second cache and the [220, 280] clamp of its simulated price.
- `Header`: `truncateAddress`, with `slice` semantics from `Js`.
- `Ui`: the components wired together. Each game-area click or timer callback reaches the store only through the panel the current phase renders; the header's sound and haptic toggles are always available. This module proves the at-most-one-round, locked-price and ten-second properties for the UI as modelled: a panel's handlers and effects act only while its phase is current, and the timer effect runs once per countdown value. The code does not enforce that assumption itself (see `Ui.UiStep` under "Left out" and the second row under "Findings").

Prices are `real`, counters `nat`, and `timeLeft` is `int` because the raw setter accepts any number.

`startGame` has no phase guard in the code. It overwrites the round from any phase, including mid-round. A call outside IDLE is not ignored: it replaces the round in progress. At most one round at a time holds only for the composed UI (`Ui.AtMostOneRound`), because the betting buttons exist only in IDLE.

## Model

| member | source | states |
|---|---|---|
| Scoring.Multiplier | src/store/gameStore.ts:140-147 | The multiplier is in 1..5 and steps up exactly at streaks 3, 5, 7 and 10 |
| Scoring.MultiplierCountsThresholds | src/store/gameStore.ts:140-147 | The multiplier equals one plus the number of thresholds 3, 5, 7, 10 the streak has reached |
| Scoring.MultiplierMonotone | src/store/gameStore.ts:140-147 | A longer streak never gives a smaller multiplier or win value |
| Scoring.MultiplierStepsAtThresholds | src/store/gameStore.ts:140-147 | One more win changes the multiplier exactly when the new streak is a threshold, and by at most one |
| Scoring.PointsForWin | src/store/gameStore.ts:115-116 | A win is worth 100 × multiplier, between 100 and 500 points |
| Stats.UpdateStats | src/store/gameStore.ts:114-129 | A win adds a game and a win, extends the streak and adds 100 × multiplier of the pre-round streak. A loss adds a game and a loss, zeroes the streak and leaves the total. The best streak is the maximum of the old best and the new streak |
| Stats.UpdatePreservesValid | src/store/gameStore.ts:121-126 | `totalGames == wins + losses` and `bestStreak >= currentStreak` are preserved, and the total never decreases |
| Stats.UpdatePreservesConsistent | src/store/gameStore.ts:114-129 | Best streak ≤ wins and 100·wins ≤ total ≤ 500·wins are preserved too |
| Stats.ReplayDescribesHistory | src/store/gameStore.ts:114-129 | Recording a history gives: games = its length, wins = its wins, current streak = wins since the last loss, best streak = longest run of wins, total = each win priced at the streak before it |
| Leaderboard.SortDescIsSorted | src/store/gameStore.ts:133 | The sort orders entries non-increasing by points |
| Leaderboard.SortDescPermutes | src/store/gameStore.ts:133 | The sort is a permutation of its input |
| Leaderboard.SortDescStable | src/store/gameStore.ts:133 | Entries with equal points keep their input order (the stable sort of the language) |
| Leaderboard.AddToLeaderboard | src/store/gameStore.ts:131-135 | The result has at most 100 entries, is sorted by points, and has min(old length + 1, 100) entries |
| Leaderboard.AddToLeaderboardIsTopOfSort | src/store/gameStore.ts:131-135 | The result is drawn from old board + entry; every dropped entry has no more points than every kept one; equal-points entries keep their order |
| Leaderboard.AddToSortedBoard | src/store/gameStore.ts:131-135 | On a sorted board, adding inserts the entry after the entries it ties with, then truncates to 100 |
| GameStore.GetMultiplier | src/store/gameStore.ts:140-147 | The store's multiplier is the multiplier of its current streak: in 1..5, stepping up exactly at streaks 3, 5, 7 and 10 |
| GameStore.SetGameState | src/store/gameStore.ts:83 | Sets only the phase; any phase, including BETTING, can be set |
| GameStore.SetUserBet | src/store/gameStore.ts:84 | Sets only the bet |
| GameStore.SetStartPrice | src/store/gameStore.ts:85 | Sets only the locked price |
| GameStore.SetCurrentPrice | src/store/gameStore.ts:86 | Sets only the current price |
| GameStore.SetTimeLeft | src/store/gameStore.ts:87 | Sets only the countdown |
| GameStore.StartGame | src/store/gameStore.ts:89-94 | From any phase: PLAYING, the given bet and price locked, countdown at the round duration. Live price, stats, leaderboard and settings are untouched |
| GameStore.StartGameIgnoresPriorRound | src/store/gameStore.ts:89-94 | The started round does not depend on the phase or round it replaces, and starting twice equals starting once |
| GameStore.StoreUpdateStats | src/store/gameStore.ts:114-129 | Applies `updateStats` to the store's statistics, with the win priced at `getMultiplier` before the update; nothing else changes |
| GameStore.EndGame | src/store/gameStore.ts:96-105 | WON iff won, LOST otherwise, statistics updated exactly once for that outcome; bet, prices, countdown, leaderboard and settings unchanged |
| GameStore.ResetGame | src/store/gameStore.ts:107-112 | IDLE, no bet, locked price 0, countdown 0. Live price, stats, leaderboard and settings are unchanged |
| GameStore.StoreAddToLeaderboard | src/store/gameStore.ts:131-135 | The leaderboard becomes the first 100 of the stable sort of old board ++ [entry] (at most 100, sorted); round, stats, settings and round duration unchanged |
| GameStore.ToggleSound | src/store/gameStore.ts:137 | Flips the sound setting; haptic setting, round, stats, leaderboard and round duration unchanged |
| GameStore.ToggleHaptic | src/store/gameStore.ts:138 | Flips the haptic setting; sound setting, round, stats, leaderboard and round duration unchanged |
| GameStore.ToggleInvolution | src/store/gameStore.ts:137-138 | Toggling twice restores the store |
| GameStore.Partialize | src/store/gameStore.ts:151-155 | The persisted projection is exactly statistics, sound and haptic settings |
| GameStore.PersistedChangesOnlyOnRecordOrToggle | src/store/gameStore.ts:151-155 | Only `endGame`, `updateStats` and the toggles change what is persisted |
| GameStore.StepPreservesStats | src/store/gameStore.ts:83-138 | Every store action keeps the statistics invariants, never lowers the total and never changes the round duration |
| GameStore.BettingOnlyViaSetter | src/store/gameStore.ts:83-112 | The only action that enters BETTING is the raw phase setter |
| GameContainer.IsWin | src/components/GameContainer.tsx:54-56 | No bet and a tie both lose. With a bet and a moved price, the round is won iff the price moved in the bet's direction |
| GameContainer.ExactlyOneDirectionWins | src/components/GameContainer.tsx:54-56 | If the price moved, exactly one direction wins; on a tie neither does; UP and DOWN are mirror images |
| GameContainer.DisplayPrice | src/components/GameContainer.tsx:30-31 | The live price when positive, otherwise the simulated price |
| GameContainer.SimulatorBase | src/components/GameContainer.tsx:27 | The simulator is based on the live price unless it is 0, else on 245 |
| GameContainer.IsLive | src/components/GameContainer.tsx:34 | Live with a positive live price regardless of the feed flag, otherwise iff the feed is connected |
| GameContainer.BettingDisabled | src/components/GameContainer.tsx:93 | Betting is disabled iff there is no positive live price and the feed is not connected |
| GameContainer.PanelFor | src/components/GameContainer.tsx:86-117 | IDLE shows betting, PLAYING the timer, WON/LOST the result, BETTING nothing |
| GameContainer.HandleTimeUp | src/components/GameContainer.tsx:49-61 | Ends the game once with the outcome of the rule on the store's bet, locked price and current price; round values, leaderboard, round duration and settings are unchanged |
| GameContainer.FlatPriceLoses | src/components/GameContainer.tsx:54-56 | A round whose price did not move is lost whatever the bet, zeroes the streak and adds no points |
| GameTimer.TimerStep | src/components/GameTimer.tsx:19-33 | At 0 or below it fires time-up and does not decrement. Otherwise it decrements by one to a non-negative value, urgent iff the pre-decrement value is at most 4 |
| GameTimer.NextUrgent | src/components/GameTimer.tsx:29-33 | The urgency flag is set by an urgent tick and never cleared |
| GameTimer.RunCountdown | src/components/GameTimer.tsx:19-37 | From t > 0 there are exactly t decrements and min(t, 4) urgent ticks before time-up; from t ≤ 0, none |
| GameTimer.RunRoundCountdown | src/components/GameTimer.tsx:19-33 | A 10-second round takes exactly 10 decrements, the last 4 urgent |
| GameTimer.IsWinning | src/components/GameTimer.tsx:45-47 | UP is winning above the locked price; any other bet is winning below it; a tie is never winning |
| GameTimer.IsWinningAgreesWithResolution | src/components/GameTimer.tsx:45-47 | With a bet placed, the live indicator equals the resolution rule |
| GameTimer.IsWinningWithoutBetDisagrees | src/components/GameTimer.tsx:45-47 | With no bet, the indicator can show winning for a round the rule loses |
| BettingButtons.HandleBet | src/components/BettingButtons.tsx:19-24 | Disabled: the store is unchanged. Enabled: the game starts on the clicked direction with the price displayed at the click, and the store's current price is left as it was |
| BettingButtons.PointsPreview | src/components/BettingButtons.tsx:95 | The preview is 100 × multiplier of the current streak |
| BettingButtons.BannerShown | src/components/BettingButtons.tsx:29 | The multiplier banner shows iff the current streak is at least 3 |
| BettingButtons.PreviewIsAwarded | src/components/BettingButtons.tsx:95 | A win of the round the click starts adds exactly the previewed points |
| GameResult.View | src/components/GameResult.tsx:14-18 | Win iff WON. A loss shows 0 points; a win shows 100 × multiplier of the streak after the update. The direction reads UP iff the price did not fall. The streak badge shows iff won with streak > 1 |
| GameResult.ShownVersusAwarded | src/components/GameResult.tsx:14-18 | After a win the panel shows the points of streak k+1 while k's were awarded. It never shows less, and the two differ iff k+1 is a threshold |
| GameResult.ShownExceedsAwardedAtStreakTwo | src/components/GameResult.tsx:14-18 | From streak 2 a win adds 100 points while the panel shows 200 |
| GameResult.TieLabelledUp | src/components/GameResult.tsx:142-143 | A lost tie is labelled as the price going UP |
| GameResult.CorrectedPointsEarned | src/components/GameResult.tsx:18 | Corrected display: 0 unless WON, else 100 × multiplier of the streak before the win |
| GameResult.CorrectedMatchesAwarded | src/components/GameResult.tsx:18 | The corrected display equals the points the round added, for wins and losses |
| PriceFeed.InitialFeed | src/hooks/useSolanaPrice.ts:11-20 | Price 0, not connected, no error, no failures |
| PriceFeed.RecordFailure | src/hooks/useSolanaPrice.ts:42-51 | Data kept and the counter up by one. At 3 or more: disconnected with the error set. Below 3: flag and error unchanged |
| PriceFeed.FetchPrice | src/hooks/useSolanaPrice.ts:23-52 | Success needs ok status and `success`. It takes price and change from the body (timestamp or now), connects, clears the error, zeroes the counter. Anything else records a failure |
| PriceFeed.ConsecutiveFailures | src/hooks/useSolanaPrice.ts:42-51 | After n failures in a row: data kept, counter + n. Disconnected with error once the count reaches 3; below that, flag and error unchanged |
| PriceFeed.TwoFailuresAbsorbed | src/hooks/useSolanaPrice.ts:46-50 | After a success, two failures keep the feed connected with no error; the third disconnects it |
| PriceFeed.InitialSim | src/hooks/useSolanaPrice.ts:82-83 | The simulator starts at the base price with a one-point history |
| PriceFeed.Reanchor | src/hooks/useSolanaPrice.ts:85-91 | Jumps to the base price and a one-point history iff the base is positive and more than 10 away; otherwise nothing changes |
| PriceFeed.SimStep | src/hooks/useSolanaPrice.ts:94-104 | The price is the moved price `p + (r1 - 0.5)·0.3 + (r2 - 0.5)·0.2` when that is at least 1, and exactly 1 otherwise. The history is the last min(n, 60) points of the old one plus the new price, so at most 61 points. Above the floor the price moves by at most 0.25 |
| PriceFeed.ReanchorKeepsShape | src/hooks/useSolanaPrice.ts:82-91 | Mounting gives, and re-anchoring keeps, a history of 1 to 61 points ending at the current price |
| PriceFeed.WalkKeepsShape | src/hooks/useSolanaPrice.ts:94-104 | Any run of steps keeps 1 to 61 history points ending at the current price |
| PriceFeed.WalkAboveFloor | src/hooks/useSolanaPrice.ts:94-104 | After one or more steps the price is at least 1, from any starting price |
| PriceRoute.InitialServer | src/app/api/price/route.ts:4-9 | No cache; the simulated price starts in [244, 248) |
| PriceRoute.Clamp | src/app/api/price/route.ts:37 | The value is kept inside [220, 280] and is unchanged when already inside |
| PriceRoute.Generate | src/app/api/price/route.ts:12-47 | The new price is the moved price clamped to [220, 280] (the nearer bound when the move leaves the range), stored as the walk's price with the update time. The 24h change is within ±1 of the price's deviation from 245 in percent |
| PriceRoute.Get | src/app/api/price/route.ts:49-74 | Always success. A fresh cache returns the cached values as `cache` and nothing changes. Otherwise the generator's clamped moved price is returned as `live`, becomes the walk's price with update time now, and is cached with timestamp now |
| PriceRoute.GetKeepsRange | src/app/api/price/route.ts:37 | The internal and cached prices stay in [220, 280] from load on, so every served price does |
| PriceRoute.CacheWindow | src/app/api/price/route.ts:51-66 | Within one second of a generating request the same price is served from cache; exactly 1000 ms later a new one is generated |
| Header.TruncateAddress | src/components/Header.tsx:15-17 | For 4 or more characters: 11 characters, the first 4, "...", the last 4. For fewer: address + "..." + address |
| Header.TruncateAddressByLength | src/components/Header.tsx:15-17 | The result is min(4, n) characters from each end around "..." |
| Ui.OnTimer | src/components/GameTimer.tsx:19-27 | The timer callback resolves the round at 0 or below and otherwise decrements the store's countdown |
| Ui.InitialSatisfiesUiInv | src/store/gameStore.ts:61-80 | The initial store satisfies the UI invariant |
| Ui.UiStepPreservesInv | src/components/GameContainer.tsx:86-117 | Every UI event (price sync, game-area clicks, timer callback, settings toggles) keeps: never BETTING, a bet in every non-IDLE phase, countdown in [0, 10], streak ≥ 1 after a win and 0 after a loss, consistent statistics |
| Ui.PriceSyncStoresDisplayedPrice | src/components/GameContainer.tsx:44-46 | The price effect sets the store's current price to the displayed price (the live one when positive); phase, bet, locked price and session unchanged |
| Ui.AtMostOneRound | src/components/GameContainer.tsx:86-95 | Outside IDLE a bet click leaves the store unchanged |
| Ui.NeverBetting | src/components/GameContainer.tsx:86-117 | No UI event enters BETTING |
| Ui.LockedWhilePlaying | src/components/GameContainer.tsx:97-106 | While PLAYING no event changes the bet or the locked price |
| Ui.BetLocksDisplayedPrice | src/components/GameContainer.tsx:86-95 | In IDLE a live click starts the round at the displayed price and a non-live click does nothing |
| Ui.CountdownTicks | src/components/GameTimer.tsx:19-27 | k ≤ timeLeft callbacks lower the countdown by k and change nothing else |
| Ui.RoundTakesTenCallbacks | src/components/GameTimer.tsx:19-27 | After a bet, ten callbacks leave the round playing at 0 and the eleventh resolves it; with an unmoved price, the round is lost |
| Ui.ResolvedRoundReportsAward | src/components/GameResult.tsx:18 | A round resolved by the timer lands on the result panel, whose corrected points equal the points it added |
| Ui.FailuresKeepBettingEnabled | src/components/GameContainer.tsx:30-34 | After a positive price has arrived, failed polls never disable betting, even after the feed disconnects |
| Ui.NoPriceYetDisablesBetting | src/components/GameContainer.tsx:34 | Until the first successful poll, betting is disabled |
| Ui.UnguardedRunsRecordEachTime | src/components/GameTimer.tsx:19-23 | Once the countdown is at 0, every run of the timer effect without a phase check records one more game, and the countdown stays at 0 |
| Ui.GuardedRunsRecordOnce | src/components/GameContainer.tsx:97-106 | With the effect acting only while PLAYING, any number of runs at 0 resolve the round exactly once, adding exactly one game |
| Ui.UiTimerIsGuarded | src/components/GameContainer.tsx:97-106 | The UI's timer callback is the phase-checked effect: it acts only while the timer panel is the current one |

## Findings

| source | as written | input that shows it | evidently intended | confidence | as-written member | corrected member |
|---|---|---|---|---|---|---|
| src/components/GameResult.tsx:14-18 | The result panel prices the win with the multiplier read after `updateStats` has already extended the streak | current streak 2, round won: 100 points added, panel shows "+200" | Show the points the round added: 100 × multiplier of the streak before the win | high on the mismatch, medium on intent; not executed | GameResult.ShownExceedsAwardedAtStreakTwo | GameResult.CorrectedMatchesAwarded |
| src/components/GameTimer.tsx:19-33 | The timer effect calls `onTimeUp` whenever it runs at a countdown of 0. Its dependencies `playTick` and `lightTap` are new functions on every render (src/hooks/useSound.ts:80, 97), and neither `handleTimeUp` nor `endGame` checks the phase | a round that has just ended, with the timer panel still mounted for its exit animation (src/components/GameContainer.tsx:85, 102): each store update re-renders it at 0, and each re-run records the round again | Resolve each round once: the effect or `endGame` acts only while PLAYING | medium on the code path, low on how often it occurs, which depends on render timing; not executed | Ui.UnguardedRunsRecordEachTime | Ui.GuardedRunsRecordOnce |

`GameResult.ShownVersusAwarded` generalises the first row: the two values differ exactly when a win brings the streak to 3, 5, 7 or 10. `GameResult.CorrectedPointsEarned` is the corrected display value. The composed UI (`Ui.ResolvedRoundReportsAward`) uses it. For the second row, the composed UI's timer callback is the phase-checked effect (`Ui.UiTimerIsGuarded`), so the UI lemmas use the corrected behaviour.

## Left out

- Ui.UiStep: the model assumes that a panel's handlers and effects act only while its phase is current, and that the timer effect runs once per countdown value. In the code, `AnimatePresence mode="wait"` (src/components/GameContainer.tsx:85) keeps the previous panel mounted and clickable during its exit animation. A bet click there can still reach `startGame` with stale props. The timer effect re-runs on every render, because `playTick` and `lightTap` are new functions each time: at 0 it calls `onTimeUp` again (second row under "Findings"), and while PLAYING each re-render restarts the one-second timeout. `Ui.AtMostOneRound`, `Ui.RoundTakesTenCallbacks` and `Ui.ResolvedRoundReportsAward` hold under this assumption only.
- Rendering, animation, styling, the price chart, the install prompt, the intro screen and the static mock leaderboard: presentation only, apart from the exit animation's effect on event handling described in the `Ui.UiStep` line above.
- Sound and haptics (Web Audio, `navigator.vibrate`): foreign browser APIs. Only the urgency signal of the timer is modelled.
- `fetch`, `setInterval`/`setTimeout` scheduling and effect cleanup: only the step each callback performs is modelled. Fetch results are inputs (`PriceFeed.FetchOutcome`).
- Persistence I/O (zustand `persist`, localStorage): only the `partialize` projection is modelled.
- Wallet adapter, share/Twitter and confetti: foreign APIs.
- `endGame` computes a multiplier and points it never uses. They have no observable effect and are not modelled.
- The store's `leaderboard` is never fed by any component; `addToLeaderboard` is modelled on its own.
- Numbers are unbounded integers and exact reals. IEEE-754 doubles, `NaN` and precision above 2^53 are not modelled.
- PriceRoute.Generate: the Ornstein–Uhlenbeck shock, mean reversion, drift and jump terms become one `movement` parameter. The cent rounding (`Math.round(x * 100) / 100`) of the returned price and change is not applied.
- PriceRoute.Get: the several `Date.now()` reads of one request are one `now` parameter.
- PriceFeed.SimStep: the two `Math.random()` draws are parameters in [0, 1). The React state-updater plumbing is not modelled.
- PriceFeed.FetchPrice: a success whose body has a non-numeric price would throw while logging and count as a failure after the reset. The route always sends a number, so the model's body carries a `real` price and this path does not arise.
- Header.TruncateAddress: strings are sequences of characters, not UTF-16 code units.
- `toFixed` formatting (prices, win rate): presentation only.

=== FILE: betting_buttons.dfy ===
/**
 * The betting panel: the click guard, the points preview and the multiplier
 * banner.
 */
module BettingButtons {
  import opened Scoring
  import opened Stats
  import opened GameStore

  /**
   * `handleBet`: a disabled panel ignores the click; otherwise the game starts
   * with the chosen direction and the price the panel displays at that moment.
   */
  function HandleBet(s: Store, disabled: bool, currentPrice: real, direction: Direction): (r: Store)
    ensures disabled ==> r == s
    ensures !disabled ==> r.gameState == Playing && r.userBet == Placed(direction)
    ensures !disabled ==> r.startPrice == currentPrice && r.timeLeft == s.roundDuration
    ensures !disabled ==> r.currentPrice == s.currentPrice
    ensures SameSession(r, s)
  {
    if disabled then s else StartGame(s, Placed(direction), currentPrice)
  }

  /** Points shown on both buttons: what a win is worth at the current streak. */
  function PointsPreview(s: Store): (p: nat)
    ensures BasePoints <= p <= 5 * BasePoints
    ensures p == PointsForWin(s.stats.currentStreak)
  {
    BasePoints * GetMultiplier(s)
  }

  /** The multiplier banner shows when the multiplier exceeds 1. */
  function BannerShown(s: Store): (shown: bool)
    ensures shown <==> s.stats.currentStreak >= 3
  {
    GetMultiplier(s) > 1
  }

  /**
   * The preview on the buttons is exactly what a win of the round started by
   * the click adds to the total.
   */
  lemma PreviewIsAwarded(s: Store, currentPrice: real, direction: Direction)
    ensures var started := HandleBet(s, false, currentPrice, direction);
      EndGame(started, true).stats.totalPoints == s.stats.totalPoints + PointsPreview(s)
  {
  }
}

=== FILE: game_container.dfy ===
/**
 * The rules the game container applies around the store: which price is
 * shown, whether betting is enabled, which panel a phase shows, and how a
 * finished countdown is resolved.
 */
module GameContainer {
  import opened Stats
  import opened GameStore

  /** Price the simulator falls back to when no live price has arrived (`livePrice || 245`). */
  const FallbackBasePrice: real := 245.0

  /**
   * The round resolution rule: UP wins on a strictly higher final price, DOWN
   * on a strictly lower one; a tie and a missing bet lose.
   */
  function IsWin(bet: Bet, locked: real, final: real): (w: bool)
    ensures bet == NoBet ==> !w
    ensures final == locked ==> !w
    ensures bet.Placed? && final != locked ==> (w <==> (final > locked <==> bet.dir == Up))
  {
    assert bet.Placed? ==> bet == Placed(bet.dir) && (bet.dir == Up || bet.dir == Down);
    (bet == Placed(Up) && final > locked) || (bet == Placed(Down) && final < locked)
  }

  /** When the price moved, exactly one of the two directions wins, and the two are mirror images. */
  lemma ExactlyOneDirectionWins(locked: real, final: real)
    ensures final != locked ==> IsWin(Placed(Up), locked, final) != IsWin(Placed(Down), locked, final)
    ensures final == locked ==> !IsWin(Placed(Up), locked, final) && !IsWin(Placed(Down), locked, final)
    ensures IsWin(Placed(Up), locked, final) == IsWin(Placed(Down), final, locked)
  {
  }

  /** The price shown and written to the store: the live price once it is positive, else the simulated one. */
  function DisplayPrice(livePrice: real, simulatedPrice: real): (p: real)
    ensures livePrice > 0.0 ==> p == livePrice
    ensures livePrice <= 0.0 ==> p == simulatedPrice
    ensures p > 0.0 <== livePrice > 0.0 || simulatedPrice > 0.0
  {
    if livePrice > 0.0 then livePrice else simulatedPrice
  }

  /** The base price handed to the simulator: the live price unless it is zero. */
  function SimulatorBase(livePrice: real): (b: real)
    ensures livePrice != 0.0 ==> b == livePrice
    ensures livePrice == 0.0 ==> b == FallbackBasePrice
  {
    if livePrice != 0.0 then livePrice else FallbackBasePrice
  }

  /** The connection badge is on with a positive live price or a connected feed. */
  function IsLive(livePrice: real, isConnected: bool): (live: bool)
    ensures livePrice > 0.0 ==> live
    ensures livePrice <= 0.0 ==> (live <==> isConnected)
  {
    livePrice > 0.0 || isConnected
  }

  /** The betting buttons are disabled exactly when the feed is not live. */
  function BettingDisabled(livePrice: real, isConnected: bool): (d: bool)
    ensures d <==> livePrice <= 0.0 && !isConnected
  {
    !IsLive(livePrice, isConnected)
  }

  datatype Panel = BettingPanel | TimerPanel | ResultPanel | NoPanel

  /** The panel each phase renders; BETTING renders none. */
  function PanelFor(phase: Phase): (p: Panel)
    ensures p == BettingPanel <==> phase == Idle
    ensures p == TimerPanel <==> phase == Playing
    ensures p == ResultPanel <==> phase == Won || phase == Lost
    ensures p == NoPanel <==> phase == Betting
  {
    match phase
    case Idle => BettingPanel
    case Playing => TimerPanel
    case Won => ResultPanel
    case Lost => ResultPanel
    case Betting => NoPanel
  }

  /**
   * `handleTimeUp`: reads the final price, the locked price and the bet from
   * the store and ends the game once with the resolved outcome.
   */
  function HandleTimeUp(s: Store): (r: Store)
    ensures r.gameState == Won <==> IsWin(s.userBet, s.startPrice, s.currentPrice)
    ensures r.gameState == Lost <==> !IsWin(s.userBet, s.startPrice, s.currentPrice)
    ensures r.stats == UpdateStats(s.stats, IsWin(s.userBet, s.startPrice, s.currentPrice))
    ensures r.userBet == s.userBet && r.startPrice == s.startPrice
    ensures r.currentPrice == s.currentPrice && r.timeLeft == s.timeLeft
    ensures r.leaderboard == s.leaderboard && r.roundDuration == s.roundDuration
    ensures r.soundEnabled == s.soundEnabled && r.hapticEnabled == s.hapticEnabled
  {
    EndGame(s, IsWin(s.userBet, s.startPrice, s.currentPrice))
  }

  /** A round whose price did not move is lost, whichever way the bet went, and it breaks the streak. */
  lemma FlatPriceLoses(s: Store)
    requires s.currentPrice == s.startPrice
    ensures HandleTimeUp(s).gameState == Lost
    ensures HandleTimeUp(s).stats.currentStreak == 0
    ensures HandleTimeUp(s).stats.totalPoints == s.stats.totalPoints
  {
  }
}

=== FILE: game_result.dfy ===
/**
 * The result panel: what it shows after a round is resolved.
 */
module GameResult {
  import opened Scoring
  import opened Stats
  import opened GameStore

  datatype ResultView = ResultView(
    isWin: bool,
    pointsEarned: nat,
    priceWentUp: bool,
    streakBadge: bool)

  /**
   * The values the panel computes from the store. The points are priced with
   * the multiplier of the store's streak as it is when the panel renders,
   * which is after `updateStats` has already counted the win.
   */
  function View(s: Store): (v: ResultView)
    ensures v.isWin <==> s.gameState == Won
    ensures !v.isWin ==> v.pointsEarned == 0
    ensures v.isWin ==> v.pointsEarned == PointsForWin(s.stats.currentStreak)
    ensures v.priceWentUp <==> s.currentPrice >= s.startPrice
    ensures v.streakBadge <==> v.isWin && s.stats.currentStreak > 1
  {
    var isWin := s.gameState == Won;
    var priceDiff := s.currentPrice - s.startPrice;
    ResultView(
      isWin,
      if isWin then BasePoints * GetMultiplier(s) else 0,
      priceDiff >= 0.0,
      isWin && s.stats.currentStreak > 1)
  }

  /** Points a round actually added to the total. */
  function Awarded(before: Store, after: Store): int
  {
    after.stats.totalPoints - before.stats.totalPoints
  }

  /**
   * After a won round the panel shows the points of the streak INCLUDING this
   * win, while the total grew by the points of the streak before it. The two
   * differ exactly when this win reaches a multiplier threshold, and the panel
   * never shows less than was awarded.
   */
  lemma ShownVersusAwarded(s: Store)
    ensures var after := EndGame(s, true);
      var k := s.stats.currentStreak;
      && View(after).pointsEarned == PointsForWin(k + 1)
      && Awarded(s, after) == PointsForWin(k)
      && View(after).pointsEarned >= Awarded(s, after)
      && (View(after).pointsEarned != Awarded(s, after) <==> k + 1 in Thresholds)
  {
    MultiplierStepsAtThresholds(s.stats.currentStreak);
  }

  /** Concretely: with a streak of 2, a win adds 100 points and the panel shows 200. */
  lemma ShownExceedsAwardedAtStreakTwo(s: Store)
    requires s.stats.currentStreak == 2
    ensures Awarded(s, EndGame(s, true)) == 100
    ensures View(EndGame(s, true)).pointsEarned == 200
  {
  }

  /** A tie loses, yet the panel labels the price movement UP. */
  lemma TieLabelledUp(s: Store)
    requires s.gameState == Lost && s.currentPrice == s.startPrice
    ensures !View(s).isWin && View(s).priceWentUp
  {
  }

  /**
   * The points the panel evidently means to show: the multiplier of the
   * streak the win was priced at, which is one less than the streak after it.
   */
  function CorrectedPointsEarned(s: Store): (p: nat)
    ensures s.gameState != Won ==> p == 0
    ensures s.gameState == Won && s.stats.currentStreak >= 1 ==>
      p == PointsForWin(s.stats.currentStreak - 1)
  {
    if s.gameState != Won then 0
    else if s.stats.currentStreak >= 1 then PointsForWin(s.stats.currentStreak - 1)
    else PointsForWin(0)
  }

  /** The corrected value is exactly what the round added to the total, win or loss. */
  lemma CorrectedMatchesAwarded(s: Store, won: bool)
    ensures CorrectedPointsEarned(EndGame(s, won)) == Awarded(s, EndGame(s, won))
  {
  }
}

=== FILE: game_store.dfy ===
/**
 * The client-side game store: round state, statistics, leaderboard and
 * settings, with every action of the store as a pure transition.
 */
module GameStore {
  import opened Scoring
  import opened Stats
  import opened Leaderboard

  /** `BETTING` is declared but no action other than the raw setter enters it. */
  datatype Phase = Idle | Betting | Playing | Won | Lost

  datatype Direction = Up | Down

  /** `'UP' | 'DOWN' | null`. */
  datatype Bet = NoBet | Placed(dir: Direction)

  datatype Store = Store(
    gameState: Phase,
    userBet: Bet,
    startPrice: real,
    currentPrice: real,
    timeLeft: int,
    roundDuration: int,
    stats: Stats,
    leaderboard: seq<Entry>,
    soundEnabled: bool,
    hapticEnabled: bool)

  /** Length of a round in seconds. */
  const RoundDuration: int := 10

  /** The store as created. */
  const Initial := Store(Idle, NoBet, 0.0, 0.0, 0, RoundDuration, InitialStats, [], true, true)

  /** Statistics, leaderboard and settings agree: what outlives a round. */
  predicate SameSession(a: Store, b: Store)
  {
    && a.stats == b.stats
    && a.leaderboard == b.leaderboard
    && a.soundEnabled == b.soundEnabled
    && a.hapticEnabled == b.hapticEnabled
    && a.roundDuration == b.roundDuration
  }

  /** The fields of the round in progress agree. */
  predicate SameRound(a: Store, b: Store)
  {
    && a.gameState == b.gameState
    && a.userBet == b.userBet
    && a.startPrice == b.startPrice
    && a.currentPrice == b.currentPrice
    && a.timeLeft == b.timeLeft
  }

  /** `getMultiplier`: the multiplier for the store's current streak. */
  function GetMultiplier(s: Store): (m: nat)
    ensures m == Multiplier(s.stats.currentStreak)
    ensures 1 <= m <= 5
    ensures m >= 2 <==> s.stats.currentStreak >= 3
    ensures m >= 3 <==> s.stats.currentStreak >= 5
    ensures m >= 4 <==> s.stats.currentStreak >= 7
    ensures m == 5 <==> s.stats.currentStreak >= 10
  {
    Multiplier(s.stats.currentStreak)
  }

  // ---------------------------------------------------------------------------
  // Raw setters.

  function SetGameState(s: Store, phase: Phase): (r: Store)
    ensures r.gameState == phase && SameSession(r, s)
    ensures r.userBet == s.userBet && r.startPrice == s.startPrice
    ensures r.currentPrice == s.currentPrice && r.timeLeft == s.timeLeft
  {
    s.(gameState := phase)
  }

  function SetUserBet(s: Store, bet: Bet): (r: Store)
    ensures r.userBet == bet && SameSession(r, s)
    ensures r.gameState == s.gameState && r.startPrice == s.startPrice
    ensures r.currentPrice == s.currentPrice && r.timeLeft == s.timeLeft
  {
    s.(userBet := bet)
  }

  function SetStartPrice(s: Store, price: real): (r: Store)
    ensures r.startPrice == price && SameSession(r, s)
    ensures r.gameState == s.gameState && r.userBet == s.userBet
    ensures r.currentPrice == s.currentPrice && r.timeLeft == s.timeLeft
  {
    s.(startPrice := price)
  }

  function SetCurrentPrice(s: Store, price: real): (r: Store)
    ensures r.currentPrice == price && SameSession(r, s)
    ensures r.gameState == s.gameState && r.userBet == s.userBet
    ensures r.startPrice == s.startPrice && r.timeLeft == s.timeLeft
  {
    s.(currentPrice := price)
  }

  function SetTimeLeft(s: Store, time: int): (r: Store)
    ensures r.timeLeft == time && SameSession(r, s)
    ensures r.gameState == s.gameState && r.userBet == s.userBet
    ensures r.startPrice == s.startPrice && r.currentPrice == s.currentPrice
  {
    s.(timeLeft := time)
  }

  // ---------------------------------------------------------------------------
  // Round actions.

  /**
   * `startGame`: locks the bet and the price and starts the countdown. There is
   * no phase guard: it overwrites the round from any phase.
   */
  function StartGame(s: Store, bet: Bet, price: real): (r: Store)
    ensures r.gameState == Playing
    ensures r.userBet == bet && r.startPrice == price
    ensures r.timeLeft == s.roundDuration
    ensures r.currentPrice == s.currentPrice
    ensures SameSession(r, s)
  {
    s.(gameState := Playing, userBet := bet, startPrice := price, timeLeft := s.roundDuration)
  }

  /** `updateStats` on the store: records one round, pricing a win at the streak before it. */
  function StoreUpdateStats(s: Store, won: bool): (r: Store)
    ensures r.stats == UpdateStats(s.stats, won)
    ensures won ==> r.stats.totalPoints == s.stats.totalPoints + BasePoints * GetMultiplier(s)
    ensures SameRound(r, s)
    ensures r.leaderboard == s.leaderboard && r.roundDuration == s.roundDuration
    ensures r.soundEnabled == s.soundEnabled && r.hapticEnabled == s.hapticEnabled
  {
    s.(stats := UpdateStats(s.stats, won))
  }

  /** `endGame`: moves to WON or LOST and records the outcome exactly once. */
  function EndGame(s: Store, won: bool): (r: Store)
    ensures r.gameState == Won <==> won
    ensures r.gameState == Lost <==> !won
    ensures r.stats == UpdateStats(s.stats, won)
    ensures r.userBet == s.userBet && r.startPrice == s.startPrice
    ensures r.currentPrice == s.currentPrice && r.timeLeft == s.timeLeft
    ensures r.leaderboard == s.leaderboard && r.roundDuration == s.roundDuration
    ensures r.soundEnabled == s.soundEnabled && r.hapticEnabled == s.hapticEnabled
  {
    StoreUpdateStats(SetGameState(s, if won then Won else Lost), won)
  }

  /** `resetGame`: back to IDLE with no bet; the live price and everything durable stay. */
  function ResetGame(s: Store): (r: Store)
    ensures r.gameState == Idle && r.userBet == NoBet
    ensures r.startPrice == 0.0 && r.timeLeft == 0
    ensures r.currentPrice == s.currentPrice
    ensures SameSession(r, s)
  {
    s.(gameState := Idle, userBet := NoBet, startPrice := 0.0, timeLeft := 0)
  }

  /** `addToLeaderboard` on the store. */
  function StoreAddToLeaderboard(s: Store, e: Entry): (r: Store)
    ensures r.leaderboard == AddToLeaderboard(s.leaderboard, e)
    ensures |r.leaderboard| <= MaxEntries && SortedDesc(r.leaderboard)
    ensures SameRound(r, s) && r.stats == s.stats && r.roundDuration == s.roundDuration
    ensures r.soundEnabled == s.soundEnabled && r.hapticEnabled == s.hapticEnabled
  {
    s.(leaderboard := AddToLeaderboard(s.leaderboard, e))
  }

  function ToggleSound(s: Store): (r: Store)
    ensures r.soundEnabled != s.soundEnabled
    ensures r.hapticEnabled == s.hapticEnabled && SameRound(r, s) && r.stats == s.stats
    ensures r.leaderboard == s.leaderboard && r.roundDuration == s.roundDuration
  {
    s.(soundEnabled := !s.soundEnabled)
  }

  function ToggleHaptic(s: Store): (r: Store)
    ensures r.hapticEnabled != s.hapticEnabled
    ensures r.soundEnabled == s.soundEnabled && SameRound(r, s) && r.stats == s.stats
    ensures r.leaderboard == s.leaderboard && r.roundDuration == s.roundDuration
  {
    s.(hapticEnabled := !s.hapticEnabled)
  }

  /** Toggling a setting twice restores the store. */
  lemma ToggleInvolution(s: Store)
    ensures ToggleSound(ToggleSound(s)) == s
    ensures ToggleHaptic(ToggleHaptic(s)) == s
  {
  }

  // ---------------------------------------------------------------------------
  // Persistence projection.

  datatype Persisted = Persisted(stats: Stats, soundEnabled: bool, hapticEnabled: bool)

  /** `partialize`: only statistics and settings are written to storage. */
  function Partialize(s: Store): (p: Persisted)
    ensures p.stats == s.stats
    ensures p.soundEnabled == s.soundEnabled && p.hapticEnabled == s.hapticEnabled
  {
    Persisted(s.stats, s.soundEnabled, s.hapticEnabled)
  }

  // ---------------------------------------------------------------------------
  // The store as a transition system.

  datatype Action =
    | SetGameStateAction(phase: Phase)
    | SetUserBetAction(bet: Bet)
    | SetStartPriceAction(price: real)
    | SetCurrentPriceAction(price: real)
    | SetTimeLeftAction(time: int)
    | StartGameAction(bet: Bet, price: real)
    | EndGameAction(won: bool)
    | ResetGameAction
    | UpdateStatsAction(won: bool)
    | AddToLeaderboardAction(entry: Entry)
    | ToggleSoundAction
    | ToggleHapticAction

  function Step(s: Store, a: Action): Store
  {
    match a
    case SetGameStateAction(phase) => SetGameState(s, phase)
    case SetUserBetAction(bet) => SetUserBet(s, bet)
    case SetStartPriceAction(price) => SetStartPrice(s, price)
    case SetCurrentPriceAction(price) => SetCurrentPrice(s, price)
    case SetTimeLeftAction(time) => SetTimeLeft(s, time)
    case StartGameAction(bet, price) => StartGame(s, bet, price)
    case EndGameAction(won) => EndGame(s, won)
    case ResetGameAction => ResetGame(s)
    case UpdateStatsAction(won) => StoreUpdateStats(s, won)
    case AddToLeaderboardAction(entry) => StoreAddToLeaderboard(s, entry)
    case ToggleSoundAction => ToggleSound(s)
    case ToggleHapticAction => ToggleHaptic(s)
  }

  /**
   * Every action keeps the statistics valid, never lowers the point total,
   * and never changes the round length.
   */
  lemma StepPreservesStats(s: Store, a: Action)
    requires Valid(s.stats)
    ensures Valid(Step(s, a).stats)
    ensures Step(s, a).stats.totalPoints >= s.stats.totalPoints
    ensures Step(s, a).roundDuration == s.roundDuration
  {
    match a
    case EndGameAction(won) => UpdatePreservesValid(s.stats, won);
    case UpdateStatsAction(won) => UpdatePreservesValid(s.stats, won);
    case _ =>
  }

  /** Only the raw setter enters BETTING. */
  lemma BettingOnlyViaSetter(s: Store, a: Action)
    requires s.gameState != Betting && Step(s, a).gameState == Betting
    ensures a == SetGameStateAction(Betting)
  {
  }

  /**
   * The persisted part of the store changes only when a round is recorded or a
   * setting is toggled.
   */
  lemma PersistedChangesOnlyOnRecordOrToggle(s: Store, a: Action)
    requires Partialize(Step(s, a)) != Partialize(s)
    ensures a.EndGameAction? || a.UpdateStatsAction? || a.ToggleSoundAction? || a.ToggleHapticAction?
  {
  }

  /**
   * Starting a game does not look at the phase or the previous round: two
   * stores with the same session and live price start the same round, and
   * starting twice is starting once.
   */
  lemma StartGameIgnoresPriorRound(s: Store, t: Store, bet: Bet, price: real)
    requires SameSession(s, t) && s.currentPrice == t.currentPrice
    ensures StartGame(s, bet, price) == StartGame(t, bet, price)
    ensures StartGame(StartGame(s, bet, price), bet, price) == StartGame(s, bet, price)
  {
  }
}

=== FILE: game_timer.dfy ===
/**
 * The countdown effect of the timer panel: one step per callback, the
 * urgency flag, and the live "winning" indicator.
 */
module GameTimer {
  import opened GameStore
  import opened GameContainer

  /** Countdown values at or below which a step is urgent (tick sound, haptic tap, red ring). */
  const UrgentFrom: int := 4

  /** What one run of the countdown effect does. */
  datatype TimerEffect =
    | FireTimeUp
    | Decrement(next: int, urgentTick: bool)

  /**
   * One run of the effect: at zero or below it calls `onTimeUp` and schedules
   * nothing; otherwise, one second later, it sets `timeLeft - 1` and signals
   * urgency when the value before the decrement was at most 4.
   */
  function TimerStep(timeLeft: int): (e: TimerEffect)
    ensures e.FireTimeUp? <==> timeLeft <= 0
    ensures e.Decrement? ==> e.next == timeLeft - 1 && e.next >= 0
    ensures e.Decrement? ==> (e.urgentTick <==> timeLeft <= UrgentFrom)
  {
    if timeLeft <= 0 then FireTimeUp
    else Decrement(timeLeft - 1, timeLeft <= UrgentFrom)
  }

  /** The timer's `isUrgent` flag after a step: set by an urgent tick, never cleared. */
  function NextUrgent(isUrgent: bool, e: TimerEffect): (u: bool)
    ensures isUrgent ==> u
    ensures u <==> isUrgent || (e.Decrement? && e.urgentTick)
  {
    match e
    case FireTimeUp => isUrgent
    case Decrement(_, tick) => isUrgent || tick
  }

  /**
   * Runs the countdown from `start` until the effect fires `onTimeUp`, with a
   * fresh (not urgent) timer. Counts the decrements and the urgent ticks.
   */
  method RunCountdown(start: int) returns (decrements: nat, urgentTicks: nat, isUrgent: bool)
    ensures start <= 0 ==> decrements == 0 && urgentTicks == 0 && !isUrgent
    ensures start > 0 ==> decrements == start
    ensures start > 0 ==> urgentTicks == (if start < UrgentFrom then start else UrgentFrom)
    ensures isUrgent <==> start > 0
  {
    var t := start;
    decrements, urgentTicks, isUrgent := 0, 0, false;
    while true
      invariant start <= 0 ==> t == start && decrements == 0 && urgentTicks == 0
      invariant start > 0 ==> 0 <= t <= start && decrements == start - t
      invariant start > 0 ==> urgentTicks == (if start < UrgentFrom then start else UrgentFrom)
                                              - (if t < UrgentFrom then t else UrgentFrom)
      invariant isUrgent <==> start > 0 && t < start && (t < UrgentFrom || start <= UrgentFrom)
      decreases if t > 0 then t else 0
    {
      var e := TimerStep(t);
      if e.FireTimeUp? {
        break;
      }
      isUrgent := NextUrgent(isUrgent, e);
      if e.urgentTick {
        urgentTicks := urgentTicks + 1;
      }
      t := e.next;
      decrements := decrements + 1;
    }
  }

  /** The full ten-second round: ten decrements, the last four of them urgent. */
  method RunRoundCountdown() returns (decrements: nat, urgentTicks: nat)
    ensures decrements == RoundDuration
    ensures urgentTicks == UrgentFrom
  {
    var urgent;
    decrements, urgentTicks, urgent := RunCountdown(RoundDuration);
  }

  /** The live indicator: UP is winning above the locked price, anything else below it. */
  function IsWinning(bet: Bet, startPrice: real, currentPrice: real): (w: bool)
    ensures bet == Placed(Up) ==> (w <==> currentPrice > startPrice)
    ensures bet != Placed(Up) ==> (w <==> currentPrice < startPrice)
    ensures currentPrice == startPrice ==> !w
  {
    if bet == Placed(Up) then currentPrice > startPrice else currentPrice < startPrice
  }

  /** With a bet placed, the live indicator agrees with the resolution rule, ties included. */
  lemma IsWinningAgreesWithResolution(bet: Bet, startPrice: real, currentPrice: real)
    requires bet.Placed?
    ensures IsWinning(bet, startPrice, currentPrice) == IsWin(bet, startPrice, currentPrice)
  {
  }

  /** Without a bet the indicator treats the round as DOWN and can show "winning" for a round that loses. */
  lemma IsWinningWithoutBetDisagrees()
    ensures IsWinning(NoBet, 2.0, 1.0) && !IsWin(NoBet, 2.0, 1.0)
  {
  }
}

=== FILE: header.dfy ===
/**
 * The header's wallet-address shortener.
 */
module Header {
  import opened Js

  const Ellipsis: string := "..."

  /** Characters kept from each end of the address. */
  const Keep: nat := 4

  /** `truncateAddress`: the first four characters, "...", and the last four, by `slice` rules. */
  function TruncateAddress(address: string): (r: string)
    ensures |address| >= Keep ==> |r| == 2 * Keep + |Ellipsis|
    ensures |address| >= Keep ==> r[..Keep] == address[..Keep]
    ensures |address| >= Keep ==> r[Keep..Keep + |Ellipsis|] == Ellipsis
    ensures |address| >= Keep ==> r[Keep + |Ellipsis|..] == address[|address| - Keep..]
    ensures |address| < Keep ==> r == address + Ellipsis + address
  {
    Slice(address, 0, Keep) + Ellipsis + SliceFrom(address, -(Keep as int))
  }

  /** The shortened address with the lengths spelled out: `min(4, n)` characters from each end. */
  lemma TruncateAddressByLength(address: string)
    ensures var k := if |address| < Keep then |address| else Keep;
      TruncateAddress(address) == address[..k] + Ellipsis + address[|address| - k..]
  {
  }
}

=== FILE: js.dfy ===
/**
 * JavaScript `slice` on strings and arrays: negative indices count from the
 * end, and every index is clamped into `[0, length]`.
 */
module Js {

  /** Normalises a `slice` index the way ECMAScript does. */
  function ClampIndex(i: int, n: nat): (k: nat)
    ensures k <= n
    ensures i < 0 && n + i >= 0 ==> k == n + i
    ensures i < 0 && n + i < 0 ==> k == 0
    ensures 0 <= i <= n ==> k == i
    ensures i > n ==> k == n
  {
    if i < 0 then (if n + i < 0 then 0 else n + i)
    else if i > n then n
    else i
  }

  /** `s.slice(start, end)`; empty when the normalised end precedes the start. */
  function Slice<T>(s: seq<T>, start: int, end: int): (r: seq<T>)
    ensures |r| <= |s|
    ensures var a, b := ClampIndex(start, |s|), ClampIndex(end, |s|);
      (a <= b ==> r == s[a..b]) && (a > b ==> r == [])
  {
    var a := ClampIndex(start, |s|);
    var b := ClampIndex(end, |s|);
    if a <= b then s[a..b] else []
  }

  /** `s.slice(start)`: everything from the normalised start to the end. */
  function SliceFrom<T>(s: seq<T>, start: int): (r: seq<T>)
    ensures r == s[ClampIndex(start, |s|)..]
  {
    s[ClampIndex(start, |s|)..]
  }
}

=== FILE: leaderboard.dfy ===
/**
 * The store's leaderboard (`addToLeaderboard`): append the entry, sort
 * descending by points with a stable sort, keep the first 100.
 */
module Leaderboard {

  datatype Entry = Entry(wallet: string, points: int, streak: int, timestamp: int)

  /** The leaderboard keeps at most this many entries. */
  const MaxEntries: nat := 100

  /** Descending by points (ties in any order). */
  predicate SortedDesc(s: seq<Entry>)
  {
    forall i, j :: 0 <= i < j < |s| ==> s[i].points >= s[j].points
  }

  /**
   * Places `e` after every entry whose points are at least `e.points`, that is
   * before the first entry with strictly fewer points: a later entry goes
   * after the earlier entries it ties with, as a stable sort leaves it.
   */
  function Insert(r: seq<Entry>, e: Entry): (out: seq<Entry>)
    ensures multiset(out) == multiset(r) + multiset{e}
    ensures |out| == |r| + 1
  {
    if |r| == 0 then [e]
    else if r[0].points >= e.points then
      assert r == [r[0]] + r[1..];
      [r[0]] + Insert(r[1..], e)
    else [e] + r
  }

  /**
   * Stable descending sort by points, as `Array.prototype.sort` with the
   * comparator `(a, b) => b.points - a.points` produces it (the language
   * requires that sort to be stable).
   */
  function SortDesc(s: seq<Entry>): seq<Entry>
  {
    if |s| == 0 then [] else Insert(SortDesc(s[..|s| - 1]), s[|s| - 1])
  }

  /** The entries of `s` with exactly `v` points, in their order in `s`. */
  function Ties(s: seq<Entry>, v: int): seq<Entry>
  {
    if |s| == 0 then []
    else Ties(s[..|s| - 1], v) + (if s[|s| - 1].points == v then [s[|s| - 1]] else [])
  }

  /** `addToLeaderboard`: the first 100 entries of the stably sorted list with the new entry appended. */
  function AddToLeaderboard(board: seq<Entry>, e: Entry): (r: seq<Entry>)
    ensures |r| <= MaxEntries
    ensures |board| < MaxEntries ==> |r| == |board| + 1
    ensures |board| >= MaxEntries ==> |r| == MaxEntries
    ensures SortedDesc(r)
  {
    var sorted := SortDesc(board + [e]);
    SortDescIsSorted(board + [e]);
    SortDescPermutes(board + [e]);
    if |sorted| <= MaxEntries then sorted else sorted[..MaxEntries]
  }

  // ---------------------------------------------------------------------------
  // Lemmas about the sort.

  lemma {:induction false} InsertSorted(r: seq<Entry>, e: Entry)
    requires SortedDesc(r)
    ensures SortedDesc(Insert(r, e))
    decreases |r|
  {
    if |r| > 0 && r[0].points >= e.points {
      var tail := r[1..];
      assert SortedDesc(tail) by {
        forall i, j | 0 <= i < j < |tail| ensures tail[i].points >= tail[j].points {
          assert tail[i] == r[i + 1] && tail[j] == r[j + 1];
        }
      }
      forall i | 0 <= i < |tail| ensures tail[i].points <= r[0].points {
        assert tail[i] == r[i + 1];
      }
      InsertSorted(tail, e);
      InsertBelow(tail, e, r[0].points);
      var out := Insert(r, e);
      assert out == [r[0]] + Insert(tail, e);
      forall i, j | 0 <= i < j < |out| ensures out[i].points >= out[j].points {
        assert out[j] == Insert(tail, e)[j - 1];
        if i > 0 {
          assert out[i] == Insert(tail, e)[i - 1];
        }
      }
    }
  }

  /** Inserting below a bound every entry already respects keeps every entry under it. */
  lemma {:induction false} InsertBelow(r: seq<Entry>, e: Entry, b: int)
    requires forall i :: 0 <= i < |r| ==> r[i].points <= b
    requires e.points <= b
    ensures forall i :: 0 <= i < |Insert(r, e)| ==> Insert(r, e)[i].points <= b
    decreases |r|
  {
    if |r| > 0 && r[0].points >= e.points {
      var tail := r[1..];
      forall i | 0 <= i < |tail| ensures tail[i].points <= b {
        assert tail[i] == r[i + 1];
      }
      InsertBelow(tail, e, b);
      var out := Insert(r, e);
      assert out == [r[0]] + Insert(tail, e);
      forall i | 0 <= i < |out| ensures out[i].points <= b {
        if i > 0 {
          assert out[i] == Insert(tail, e)[i - 1];
        }
      }
    }
  }

  /** The sort orders the entries descending by points. */
  lemma {:induction false} SortDescIsSorted(s: seq<Entry>)
    ensures SortedDesc(SortDesc(s))
    decreases |s|
  {
    if |s| > 0 {
      SortDescIsSorted(s[..|s| - 1]);
      InsertSorted(SortDesc(s[..|s| - 1]), s[|s| - 1]);
    }
  }

  /** The sort neither loses nor invents entries. */
  lemma {:induction false} SortDescPermutes(s: seq<Entry>)
    ensures multiset(SortDesc(s)) == multiset(s)
    ensures |SortDesc(s)| == |s|
    decreases |s|
  {
    if |s| > 0 {
      var init, last := s[..|s| - 1], s[|s| - 1];
      assert s == init + [last];
      SortDescPermutes(init);
      InsertPermutes(init, last, SortDesc(init));
    }
  }

  /** One step of the sort: inserting the last entry into a permutation of the rest permutes the whole. */
  lemma InsertPermutes(init: seq<Entry>, last: Entry, sorted: seq<Entry>)
    requires multiset(sorted) == multiset(init) && |sorted| == |init|
    ensures multiset(Insert(sorted, last)) == multiset(init + [last])
    ensures |Insert(sorted, last)| == |init + [last]|
  {
    assert multiset(init + [last]) == multiset(init) + multiset{last};
  }

  lemma {:induction false} TiesAppend(a: seq<Entry>, b: seq<Entry>, v: int)
    ensures Ties(a + b, v) == Ties(a, v) + Ties(b, v)
    decreases |b|
  {
    if |b| == 0 {
      assert a + b == a;
    } else {
      var b' := b[..|b| - 1];
      assert (a + b)[..|a + b| - 1] == a + b';
      TiesAppend(a, b', v);
    }
  }

  lemma {:induction false} TiesNone(s: seq<Entry>, v: int)
    requires forall i :: 0 <= i < |s| ==> s[i].points != v
    ensures Ties(s, v) == []
    decreases |s|
  {
    if |s| > 0 {
      TiesNone(s[..|s| - 1], v);
    }
  }

  lemma TiesSingle(e: Entry, v: int)
    ensures Ties([e], v) == (if e.points == v then [e] else [])
  {
    assert [e][..0] == [];
  }

  lemma {:induction false} InsertTies(r: seq<Entry>, e: Entry, v: int)
    requires SortedDesc(r)
    ensures Ties(Insert(r, e), v) == Ties(r, v) + (if e.points == v then [e] else [])
    decreases |r|
  {
    if |r| == 0 {
      TiesSingle(e, v);
    } else if r[0].points >= e.points {
      var rest := r[1..];
      assert SortedDesc(rest) by {
        forall i, j | 0 <= i < j < |rest| ensures rest[i].points >= rest[j].points {
          assert rest[i] == r[i + 1] && rest[j] == r[j + 1];
        }
      }
      InsertTies(rest, e, v);
      InsertAfterHead(r, e, v);
    } else {
      InsertBeforeTies(r, e, v);
    }
  }

  lemma InsertAfterHead(r: seq<Entry>, e: Entry, v: int)
    requires |r| > 0 && r[0].points >= e.points
    requires Ties(Insert(r[1..], e), v) == Ties(r[1..], v) + (if e.points == v then [e] else [])
    ensures Ties(Insert(r, e), v) == Ties(r, v) + (if e.points == v then [e] else [])
  {
    var rest := r[1..];
    var tail := if e.points == v then [e] else [];
    assert Insert(r, e) == [r[0]] + Insert(rest, e);
    var head := Ties([r[0]], v);
    assert Ties(r, v) == head + Ties(rest, v) by {
      assert [r[0]] + rest == r;
      TiesAppend([r[0]], rest, v);
    }
    assert Ties(Insert(r, e), v) == head + (Ties(rest, v) + tail) by {
      TiesAppend([r[0]], Insert(rest, e), v);
    }
    AppendAssoc(head, Ties(rest, v), tail);
  }

  lemma AppendAssoc(a: seq<Entry>, b: seq<Entry>, c: seq<Entry>)
    ensures a + (b + c) == (a + b) + c
  {
  }

  lemma InsertBeforeTies(r: seq<Entry>, e: Entry, v: int)
    requires SortedDesc(r) && |r| > 0 && r[0].points < e.points
    ensures Ties(Insert(r, e), v) == Ties(r, v) + (if e.points == v then [e] else [])
  {
    assert Insert(r, e) == [e] + r;
    TiesAppend([e], r, v);
    TiesSingle(e, v);
    if e.points == v {
      forall i | 0 <= i < |r|
        ensures r[i].points != v
      {
        assert r[i].points <= r[0].points;
      }
      TiesNone(r, v);
    }
  }

  /** Stability: among entries with equal points the sort keeps the input order. */
  lemma {:induction false} SortDescStable(s: seq<Entry>, v: int)
    ensures Ties(SortDesc(s), v) == Ties(s, v)
    decreases |s|
  {
    if |s| > 0 {
      SortDescStable(s[..|s| - 1], v);
      SortDescIsSorted(s[..|s| - 1]);
      InsertTies(SortDesc(s[..|s| - 1]), s[|s| - 1], v);
    }
  }

  lemma {:induction false} InsertAtEnd(r: seq<Entry>, e: Entry)
    requires forall i :: 0 <= i < |r| ==> r[i].points >= e.points
    ensures Insert(r, e) == r + [e]
    decreases |r|
  {
    if |r| > 0 {
      InsertAtEnd(r[1..], e);
      assert [r[0]] + (r[1..] + [e]) == r + [e];
    }
  }

  /** Sorting an already sorted list changes nothing (the sort is stable). */
  lemma {:induction false} SortDescOfSorted(s: seq<Entry>)
    requires SortedDesc(s)
    ensures SortDesc(s) == s
    decreases |s|
  {
    if |s| > 0 {
      var init := s[..|s| - 1];
      SortDescOfSorted(init);
      InsertAtEnd(init, s[|s| - 1]);
      assert init + [s[|s| - 1]] == s;
    }
  }

  // ---------------------------------------------------------------------------
  // Lemmas about addToLeaderboard.

  /**
   * The leaderboard after an insertion is the top of the sorted list: it holds
   * entries of the old board plus the new one, every entry dropped has no more
   * points than any kept, and entries with equal points keep their order.
   */
  lemma AddToLeaderboardIsTopOfSort(board: seq<Entry>, e: Entry)
    ensures var r := AddToLeaderboard(board, e);
      && multiset(r) <= multiset(board + [e])
      && (forall x: Entry, y: Entry :: x in multiset(board + [e]) - multiset(r) && y in r ==> x.points <= y.points)
      && (forall v :: Ties(r, v) <= Ties(board + [e], v))
  {
    var all := board + [e];
    var sorted := SortDesc(all);
    SortDescIsSorted(all);
    SortDescPermutes(all);
    var r := AddToLeaderboard(board, e);
    var k := |r|;
    assert r == sorted[..k];
    var dropped := sorted[k..];
    assert sorted == r + dropped;
    SplitMultiset(sorted, k);
    DroppedBelowKept(sorted, k);
    forall v
      ensures Ties(r, v) <= Ties(all, v)
    {
      TiesAppend(r, dropped, v);
      SortDescStable(all, v);
    }
  }

  /** Cutting a list at `k` splits its multiset into the kept and dropped parts. */
  lemma SplitMultiset(s: seq<Entry>, k: nat)
    requires k <= |s|
    ensures multiset(s) - multiset(s[..k]) == multiset(s[k..])
  {
    assert s == s[..k] + s[k..];
  }

  /** In a sorted list, nothing after position `k` has more points than anything before it. */
  lemma DroppedBelowKept(s: seq<Entry>, k: nat)
    requires SortedDesc(s) && k <= |s|
    ensures forall x: Entry, y: Entry :: x in multiset(s[k..]) && y in s[..k] ==> x.points <= y.points
  {
    forall x: Entry, y: Entry | x in multiset(s[k..]) && y in s[..k]
      ensures x.points <= y.points
    {
      assert x in s[k..];
      var i :| k <= i < |s| && s[i] == x;
      var j :| 0 <= j < k && s[j] == y;
    }
  }

  /**
   * On a board that is already sorted (every board this operation produces),
   * adding an entry inserts it after the entries it ties with and truncates.
   */
  lemma AddToSortedBoard(board: seq<Entry>, e: Entry)
    requires SortedDesc(board)
    ensures var ins := Insert(board, e);
      AddToLeaderboard(board, e) == if |ins| <= MaxEntries then ins else ins[..MaxEntries]
  {
    SortDescOfSorted(board);
    assert (board + [e])[..|board + [e]| - 1] == board;
  }
}

=== FILE: price_feed.dfy ===
/**
 * The client price hooks: the polled feed with its consecutive-failure
 * counter, and the simulated random walk used while no live price exists.
 */
module PriceFeed {
  import opened Wrappers
  import opened Js

  datatype PriceData = PriceData(price: real, confidence: real, timestamp: int, change24h: real)

  datatype Feed = Feed(data: PriceData, isConnected: bool, error: Option<string>, failures: nat)

  /** Failures in a row after which the feed reports itself disconnected. */
  const FailureThreshold: nat := 3

  const FetchFailedMessage: string := "Failed to fetch price"

  /** The hook's state on mount; `now` is the clock at that moment. */
  function InitialFeed(now: int): (f: Feed)
    ensures f.data.price == 0.0 && f.data.timestamp == now
    ensures !f.isConnected && f.error == None && f.failures == 0
  {
    Feed(PriceData(0.0, 0.0, now, 0.0), false, None, 0)
  }

  /** The body of a price response as the client reads it; a missing timestamp is 0. */
  datatype Body = Body(success: bool, price: real, change24h: real, timestamp: int)

  /** How one fetch ended: it threw (network or JSON error), or a response arrived. */
  datatype FetchOutcome =
    | Threw
    | Responded(ok: bool, body: Body)

  /** A fetch counts as a success only with an ok status and `success` set in the body. */
  predicate Succeeded(o: FetchOutcome)
  {
    o.Responded? && o.ok && o.body.success
  }

  /** A failed fetch: the counter goes up; at the threshold the feed disconnects and reports an error. */
  function RecordFailure(f: Feed): (r: Feed)
    ensures r.data == f.data && r.failures == f.failures + 1
    ensures r.failures >= FailureThreshold ==> !r.isConnected && r.error == Some(FetchFailedMessage)
    ensures r.failures < FailureThreshold ==> r.isConnected == f.isConnected && r.error == f.error
  {
    var failures := f.failures + 1;
    if failures >= FailureThreshold then
      Feed(f.data, false, Some(FetchFailedMessage), failures)
    else
      f.(failures := failures)
  }

  /** `fetchPrice`: one poll of the price endpoint; `now` stands in for a missing timestamp. */
  function FetchPrice(f: Feed, o: FetchOutcome, now: int): (r: Feed)
    ensures Succeeded(o) ==> r.data.price == o.body.price && r.data.change24h == o.body.change24h
    ensures Succeeded(o) ==> r.data.timestamp == (if o.body.timestamp != 0 then o.body.timestamp else now)
    ensures Succeeded(o) ==> r.isConnected && r.error == None && r.failures == 0
    ensures !Succeeded(o) ==> r == RecordFailure(f)
  {
    if Succeeded(o) then
      var ts := if o.body.timestamp != 0 then o.body.timestamp else now;
      Feed(PriceData(o.body.price, 0.0, ts, o.body.change24h), true, None, 0)
    else
      RecordFailure(f)
  }

  /** The feed after `n` failed polls in a row. */
  function FailMany(f: Feed, n: nat): Feed
  {
    if n == 0 then f else RecordFailure(FailMany(f, n - 1))
  }

  /**
   * Consecutive failures: the data is kept, the counter counts them, the
   * feed disconnects with an error once the count reaches 3, and below that
   * the connection flag and the error are left as they were.
   */
  lemma {:induction false} ConsecutiveFailures(f: Feed, n: nat)
    ensures FailMany(f, n).data == f.data
    ensures FailMany(f, n).failures == f.failures + n
    ensures n >= 1 && f.failures + n >= FailureThreshold ==>
      !FailMany(f, n).isConnected && FailMany(f, n).error == Some(FetchFailedMessage)
    ensures f.failures + n < FailureThreshold ==>
      FailMany(f, n).isConnected == f.isConnected && FailMany(f, n).error == f.error
  {
    if n > 0 {
      ConsecutiveFailures(f, n - 1);
    }
  }

  /** After a successful poll, two failures are absorbed silently and the third disconnects. */
  lemma TwoFailuresAbsorbed(f: Feed, o: FetchOutcome, now: int)
    requires Succeeded(o)
    ensures var ok := FetchPrice(f, o, now);
      && FailMany(ok, 2).isConnected && FailMany(ok, 2).error == None
      && !FailMany(ok, 3).isConnected && FailMany(ok, 3).data == ok.data
  {
    ConsecutiveFailures(FetchPrice(f, o, now), 2);
    ConsecutiveFailures(FetchPrice(f, o, now), 3);
  }

  // ---------------------------------------------------------------------------
  // Simulated price.

  datatype Sim = Sim(price: real, history: seq<real>)

  /** Points of history kept before the new one is appended. */
  const HistoryKeep: nat := 60

  /** Lowest simulated price. */
  const PriceFloor: real := 1.0

  /** Distance from the base price beyond which the simulator jumps back to it. */
  const ReanchorDistance: real := 10.0

  function Abs(x: real): real
  {
    if x >= 0.0 then x else -x
  }

  /** The simulator on mount: the base price and a one-point history. */
  function InitialSim(basePrice: real): (sim: Sim)
    ensures sim.price == basePrice && sim.history == [basePrice]
  {
    Sim(basePrice, [basePrice])
  }

  /** The re-anchoring effect: jump to a positive base price that is more than 10 away. */
  function Reanchor(sim: Sim, basePrice: real): (r: Sim)
    ensures basePrice > 0.0 && Abs(basePrice - sim.price) > ReanchorDistance ==>
      r.price == basePrice && r.history == [basePrice]
    ensures !(basePrice > 0.0 && Abs(basePrice - sim.price) > ReanchorDistance) ==> r == sim
    ensures Abs(basePrice - r.price) <= ReanchorDistance || basePrice <= 0.0
  {
    if basePrice > 0.0 && Abs(basePrice - sim.price) > ReanchorDistance then InitialSim(basePrice)
    else sim
  }

  /**
   * One 500 ms step of the walk. `r1` and `r2` are the two `Math.random()`
   * draws behind the momentum and volatility terms; the price is floored at 1
   * and the history keeps its last 60 points plus the new one. Above the floor
   * a step moves the price by at most 0.25.
   */
  function SimStep(sim: Sim, r1: real, r2: real): (r: Sim)
    requires 0.0 <= r1 < 1.0 && 0.0 <= r2 < 1.0
    ensures r.price >= PriceFloor
    ensures var moved := sim.price + (r1 - 0.5) * 0.3 + (r2 - 0.5) * 0.2;
      && (moved >= PriceFloor ==> r.price == moved)
      && (moved < PriceFloor ==> r.price == PriceFloor)
    ensures |r.history| <= HistoryKeep + 1
    ensures |r.history| == (if |sim.history| < HistoryKeep then |sim.history| else HistoryKeep) + 1
    ensures |r.history| > 0 && r.history[|r.history| - 1] == r.price
    ensures |sim.history| <= HistoryKeep ==> r.history == sim.history + [r.price]
    ensures r.history[..|r.history| - 1] == sim.history[|sim.history| - (|r.history| - 1)..]
    ensures r.price > PriceFloor ==> Abs(r.price - sim.price) <= 0.25
  {
    var momentum := (r1 - 0.5) * 0.3;
    var volatility := (r2 - 0.5) * 0.2;
    var next := if sim.price + momentum + volatility >= PriceFloor then sim.price + momentum + volatility
                else PriceFloor;
    var kept := SliceFrom(sim.history, -(HistoryKeep as int));
    Sim(next, kept + [next])
  }

  /** The shape the chart relies on: 1 to 61 points, the last one being the current price. */
  predicate WellShaped(sim: Sim)
  {
    1 <= |sim.history| <= HistoryKeep + 1 && sim.history[|sim.history| - 1] == sim.price
  }

  /** The two `Math.random()` draws behind one step. */
  datatype Draw = Draw(momentum: real, volatility: real)

  /** Whether every draw lies in [0, 1), as `Math.random()` returns it. */
  predicate ValidDraws(draws: seq<Draw>)
  {
    forall i :: 0 <= i < |draws| ==> 0.0 <= draws[i].momentum < 1.0 && 0.0 <= draws[i].volatility < 1.0
  }

  /** The simulator after one 500 ms step per draw. */
  function Walk(sim: Sim, draws: seq<Draw>): Sim
    requires ValidDraws(draws)
    decreases |draws|
  {
    if |draws| == 0 then sim
    else Walk(SimStep(sim, draws[0].momentum, draws[0].volatility), draws[1..])
  }

  /** Mounting gives a well-shaped simulator and re-anchoring keeps it so. */
  lemma ReanchorKeepsShape(sim: Sim, basePrice: real)
    ensures WellShaped(InitialSim(basePrice))
    ensures WellShaped(sim) ==> WellShaped(Reanchor(sim, basePrice))
  {
  }

  /** Dropping the first draw keeps the rest valid. */
  lemma ValidDrawsTail(draws: seq<Draw>)
    requires ValidDraws(draws) && |draws| > 0
    ensures ValidDraws(draws[1..])
  {
    forall i | 0 <= i < |draws[1..]|
      ensures 0.0 <= draws[1..][i].momentum < 1.0 && 0.0 <= draws[1..][i].volatility < 1.0
    {
      assert draws[1..][i] == draws[i + 1];
    }
  }

  /** Any run of steps keeps the simulator well shaped. */
  lemma {:induction false} WalkKeepsShape(sim: Sim, draws: seq<Draw>)
    requires ValidDraws(draws)
    ensures WellShaped(sim) ==> WellShaped(Walk(sim, draws))
    decreases |draws|
  {
    if |draws| > 0 {
      ValidDrawsTail(draws);
      WalkKeepsShape(SimStep(sim, draws[0].momentum, draws[0].volatility), draws[1..]);
    }
  }

  /** After at least one step the price is at or above the floor, wherever the walk started. */
  lemma {:induction false} WalkAboveFloor(sim: Sim, draws: seq<Draw>)
    requires ValidDraws(draws)
    ensures |draws| > 0 ==> Walk(sim, draws).price >= PriceFloor
    decreases |draws|
  {
    if |draws| > 1 {
      ValidDrawsTail(draws);
      WalkAboveFloor(SimStep(sim, draws[0].momentum, draws[0].volatility), draws[1..]);
    }
  }
}

=== FILE: price_route.dfy ===
/**
 * The server-side price endpoint: a one-second cache in front of a simulated
 * price whose internal value is clamped to a realistic range.
 */
module PriceRoute {
  import opened Wrappers

  /** Milliseconds a cached price stays fresh. */
  const CacheDuration: int := 1000

  const MinPrice: real := 220.0
  const MaxPrice: real := 280.0
  const MeanPrice: real := 245.0

  datatype CacheEntry = CacheEntry(price: real, change24h: real, timestamp: int)

  /** The module-level state of the route. */
  datatype Server = Server(cache: Option<CacheEntry>, simulatedPrice: real, lastUpdateTime: int)

  datatype Source = FromCache | FromLive

  datatype Response = Response(success: bool, price: real, change24h: real, timestamp: int, source: Source)

  datatype Reply = Reply(response: Response, server: Server)

  /** The server on load: no cache, a start price drawn as `244 + 4 * r` with `r` in [0, 1). */
  function InitialServer(r: real, now: int): (sv: Server)
    requires 0.0 <= r < 1.0
    ensures sv.cache == None && sv.lastUpdateTime == now
    ensures 244.0 <= sv.simulatedPrice < 248.0
  {
    Server(None, 244.0 + r * 4.0, now)
  }

  /** Keeps a price inside [220, 280]. */
  function Clamp(x: real): (c: real)
    ensures MinPrice <= c <= MaxPrice
    ensures MinPrice <= x <= MaxPrice ==> c == x
    ensures x < MinPrice ==> c == MinPrice
    ensures x > MaxPrice ==> c == MaxPrice
  {
    if x > MaxPrice then MaxPrice else if x < MinPrice then MinPrice else x
  }

  /**
   * `generateRealisticPrice`: `movement` is the sum of the random shock, mean
   * reversion, drift and jump terms, and `r` the draw behind the noise of the
   * 24h change. The new internal price is clamped to [220, 280].
   */
  function Generate(sv: Server, now: int, movement: real, r: real): (out: (real, real, Server))
    requires 0.0 <= r < 1.0
    ensures MinPrice <= out.0 <= MaxPrice
    ensures out.2.simulatedPrice == out.0 && out.2.lastUpdateTime == now && out.2.cache == sv.cache
    ensures MinPrice <= sv.simulatedPrice + movement <= MaxPrice ==> out.0 == sv.simulatedPrice + movement
    ensures out.0 == Clamp(sv.simulatedPrice + movement)
    ensures var base := (out.0 - MeanPrice) / MeanPrice * 100.0;
      base - 1.0 <= out.1 < base + 1.0
  {
    var price := Clamp(sv.simulatedPrice + movement);
    var baseChange := (price - MeanPrice) / MeanPrice * 100.0;
    var change24h := baseChange + (r - 0.5) * 2.0;
    (price, change24h, sv.(simulatedPrice := price, lastUpdateTime := now))
  }

  /** Whether the cache answers a request at `now` (strictly younger than one second). */
  predicate Fresh(sv: Server, now: int)
  {
    sv.cache.Some? && now - sv.cache.value.timestamp < CacheDuration
  }

  /**
   * `GET`: a fresh cache answers without generating; otherwise a new price is
   * generated, cached with timestamp `now`, and returned as live. Every reply
   * reports success.
   */
  function Get(sv: Server, now: int, movement: real, r: real): (reply: Reply)
    requires 0.0 <= r < 1.0
    ensures reply.response.success
    ensures Fresh(sv, now) ==> reply.server == sv && reply.response.source == FromCache
    ensures Fresh(sv, now) ==> var c := sv.cache.value;
      reply.response.price == c.price && reply.response.change24h == c.change24h
      && reply.response.timestamp == c.timestamp
    ensures !Fresh(sv, now) ==> reply.response.source == FromLive && reply.response.timestamp == now
    ensures !Fresh(sv, now) ==>
      reply.server.cache == Some(CacheEntry(reply.response.price, reply.response.change24h, now))
    ensures !Fresh(sv, now) ==> MinPrice <= reply.response.price <= MaxPrice
    ensures !Fresh(sv, now) ==>
      && reply.response.price == Clamp(sv.simulatedPrice + movement)
      && reply.server.simulatedPrice == reply.response.price
      && reply.server.lastUpdateTime == now
  {
    if Fresh(sv, now) then
      var c := sv.cache.value;
      Reply(Response(true, c.price, c.change24h, c.timestamp, FromCache), sv)
    else
      var (price, change24h, sv') := Generate(sv, now, movement, r);
      Reply(Response(true, price, change24h, now, FromLive),
            sv'.(cache := Some(CacheEntry(price, change24h, now))))
  }

  /** The internal price and any cached price stay inside [220, 280]. */
  predicate InRange(sv: Server)
  {
    && MinPrice <= sv.simulatedPrice <= MaxPrice
    && (sv.cache.Some? ==> MinPrice <= sv.cache.value.price <= MaxPrice)
  }

  /** The range holds on load and after every request, so every price served lies in [220, 280]. */
  lemma GetKeepsRange(sv: Server, now: int, movement: real, r: real, r0: real, t0: int)
    requires 0.0 <= r < 1.0 && 0.0 <= r0 < 1.0
    ensures InRange(InitialServer(r0, t0))
    ensures InRange(sv) ==> InRange(Get(sv, now, movement, r).server)
    ensures InRange(sv) ==> MinPrice <= Get(sv, now, movement, r).response.price <= MaxPrice
  {
  }

  /**
   * A request less than a second after a generating one is served the same
   * price from the cache; a request exactly one second later generates again.
   */
  lemma CacheWindow(sv: Server, t: int, dt: int, m1: real, r1: real, m2: real, r2: real)
    requires 0.0 <= r1 < 1.0 && 0.0 <= r2 < 1.0
    requires !Fresh(sv, t) && 0 <= dt <= CacheDuration
    ensures var first := Get(sv, t, m1, r1);
      var second := Get(first.server, t + dt, m2, r2);
      && (dt < CacheDuration ==>
            && second.response.source == FromCache
            && second.response.price == first.response.price
            && second.server == first.server)
      && (dt == CacheDuration ==> second.response.source == FromLive)
  {
  }
}

=== FILE: scoring.dfy ===
/**
 * The streak multiplier (`getMultiplier`) and the points a won round is worth.
 */
module Scoring {

  /** Points a win is worth before the multiplier. */
  const BasePoints: nat := 100

  /** The streak lengths at which the multiplier steps up by one. */
  const Thresholds: seq<nat> := [3, 5, 7, 10]

  /**
   * The multiplier for a streak: 1x below 3 wins, then 2x, 3x, 4x and 5x from
   * 3, 5, 7 and 10 consecutive wins.
   */
  function Multiplier(streak: nat): (m: nat)
    ensures 1 <= m <= 5
    ensures m >= 2 <==> streak >= 3
    ensures m >= 3 <==> streak >= 5
    ensures m >= 4 <==> streak >= 7
    ensures m == 5 <==> streak >= 10
  {
    if streak >= 10 then 5
    else if streak >= 7 then 4
    else if streak >= 5 then 3
    else if streak >= 3 then 2
    else 1
  }

  /** Points a win is worth when the streak is `streak`. */
  function PointsForWin(streak: nat): (p: nat)
    ensures BasePoints <= p <= 5 * BasePoints
    ensures p == BasePoints * Multiplier(streak)
  {
    BasePoints * Multiplier(streak)
  }

  /** How many of the thresholds in `ts` the streak has reached. */
  function Reached(ts: seq<nat>, streak: nat): nat
  {
    if |ts| == 0 then 0
    else (if streak >= ts[0] then 1 else 0) + Reached(ts[1..], streak)
  }

  /** The multiplier is one plus the number of thresholds the streak has reached. */
  lemma MultiplierCountsThresholds(streak: nat)
    ensures Multiplier(streak) == 1 + Reached(Thresholds, streak)
  {
    var t1, t2, t3: seq<nat> := [5, 7, 10], [7, 10], [10];
    assert Thresholds[1..] == t1 && t1[1..] == t2 && t2[1..] == t3 && t3[1..] == [];
    assert Reached(t3, streak) == (if streak >= 10 then 1 else 0);
    assert Reached(t2, streak) == (if streak >= 7 then 1 else 0) + Reached(t3, streak);
    assert Reached(t1, streak) == (if streak >= 5 then 1 else 0) + Reached(t2, streak);
  }

  /** A longer streak never earns a smaller multiplier. */
  lemma MultiplierMonotone(a: nat, b: nat)
    requires a <= b
    ensures Multiplier(a) <= Multiplier(b)
    ensures PointsForWin(a) <= PointsForWin(b)
  {
  }

  /** One more win raises the multiplier exactly when it reaches a threshold. */
  lemma MultiplierStepsAtThresholds(streak: nat)
    ensures Multiplier(streak + 1) != Multiplier(streak) <==> streak + 1 in Thresholds
    ensures Multiplier(streak + 1) <= Multiplier(streak) + 1
  {
  }
}

=== FILE: stats.dfy ===
/**
 * The persistent game statistics of the store (`GameStats`) and the
 * `updateStats` rule that records one resolved round.
 */
module Stats {
  import opened Scoring

  datatype Stats = Stats(
    totalGames: nat,
    wins: nat,
    losses: nat,
    currentStreak: nat,
    bestStreak: nat,
    totalPoints: nat)

  /** All-zero statistics, as the store starts (and as a fresh browser loads). */
  const InitialStats := Stats(0, 0, 0, 0, 0, 0)

  /** The invariants the statistics keep: every game is a win or a loss, and the best streak bounds the current one. */
  predicate Valid(s: Stats)
  {
    && s.totalGames == s.wins + s.losses
    && s.bestStreak >= s.currentStreak
  }

  /** Bounds the history implies: streaks are made of wins, and each win is worth 100 to 500 points. */
  predicate Consistent(s: Stats)
  {
    && Valid(s)
    && s.bestStreak <= s.wins
    && BasePoints * s.wins <= s.totalPoints <= 5 * BasePoints * s.wins
  }

  function Max(a: nat, b: nat): nat
  {
    if a >= b then a else b
  }

  /**
   * Records one resolved round. The points of a win are priced with the
   * streak as it stood BEFORE this round.
   */
  function UpdateStats(s: Stats, won: bool): (r: Stats)
    ensures r.totalGames == s.totalGames + 1
    ensures won ==> r.wins == s.wins + 1 && r.losses == s.losses
    ensures !won ==> r.wins == s.wins && r.losses == s.losses + 1
    ensures won ==> r.currentStreak == s.currentStreak + 1
    ensures !won ==> r.currentStreak == 0
    ensures won ==> r.totalPoints == s.totalPoints + PointsForWin(s.currentStreak)
    ensures !won ==> r.totalPoints == s.totalPoints
    ensures r.bestStreak >= s.bestStreak && r.bestStreak >= r.currentStreak
    ensures r.bestStreak == s.bestStreak || r.bestStreak == r.currentStreak
  {
    var pointsEarned := if won then PointsForWin(s.currentStreak) else 0;
    var newStreak := if won then s.currentStreak + 1 else 0;
    Stats(
      s.totalGames + 1,
      s.wins + (if won then 1 else 0),
      s.losses + (if won then 0 else 1),
      newStreak,
      Max(s.bestStreak, newStreak),
      s.totalPoints + pointsEarned)
  }

  /** `updateStats` keeps both invariants, and the total never decreases. */
  lemma UpdatePreservesValid(s: Stats, won: bool)
    requires Valid(s)
    ensures Valid(UpdateStats(s, won))
    ensures UpdateStats(s, won).totalPoints >= s.totalPoints
  {
  }

  /** `updateStats` also keeps the bounds that tie streaks and points to wins. */
  lemma UpdatePreservesConsistent(s: Stats, won: bool)
    requires Consistent(s) && s.currentStreak <= s.wins
    ensures Consistent(UpdateStats(s, won))
    ensures UpdateStats(s, won).currentStreak <= UpdateStats(s, won).wins
  {
  }

  // ---------------------------------------------------------------------------
  // An independent description of the statistics in terms of the outcome
  // history: the streak counts the wins since the last loss.

  /** Records the outcomes in order, starting from zeroed statistics. */
  function Replay(outcomes: seq<bool>): Stats
  {
    if |outcomes| == 0 then InitialStats
    else UpdateStats(Replay(outcomes[..|outcomes| - 1]), outcomes[|outcomes| - 1])
  }

  function CountWins(outcomes: seq<bool>): nat
  {
    if |outcomes| == 0 then 0
    else CountWins(outcomes[..|outcomes| - 1]) + (if outcomes[|outcomes| - 1] then 1 else 0)
  }

  /** Number of wins since the last loss. */
  function TrailingWins(outcomes: seq<bool>): nat
  {
    if |outcomes| == 0 || !outcomes[|outcomes| - 1] then 0
    else TrailingWins(outcomes[..|outcomes| - 1]) + 1
  }

  /** The longest run of consecutive wins anywhere in the history. */
  function LongestRun(outcomes: seq<bool>): nat
  {
    if |outcomes| == 0 then 0
    else Max(LongestRun(outcomes[..|outcomes| - 1]), TrailingWins(outcomes))
  }

  /** Points a history is worth: each win priced at the streak before it. */
  function PointsOf(outcomes: seq<bool>): nat
  {
    if |outcomes| == 0 then 0
    else
      var prior := outcomes[..|outcomes| - 1];
      PointsOf(prior) + (if outcomes[|outcomes| - 1] then PointsForWin(TrailingWins(prior)) else 0)
  }

  /**
   * Replaying a history yields exactly the statistics it describes: games,
   * wins and losses counted, the current streak is the wins since the last
   * loss, the best streak the longest run, and the total the sum of each win's
   * points.
   */
  lemma {:induction false} ReplayDescribesHistory(outcomes: seq<bool>)
    ensures var s := Replay(outcomes);
      && s.totalGames == |outcomes|
      && s.wins == CountWins(outcomes)
      && s.losses == |outcomes| - CountWins(outcomes)
      && s.currentStreak == TrailingWins(outcomes)
      && s.bestStreak == LongestRun(outcomes)
      && s.totalPoints == PointsOf(outcomes)
    ensures Consistent(Replay(outcomes))
    decreases |outcomes|
  {
    if |outcomes| > 0 {
      var prior := outcomes[..|outcomes| - 1];
      ReplayDescribesHistory(prior);
      CountWinsBound(prior);
      TrailingWinsBound(prior);
      UpdatePreservesConsistent(Replay(prior), outcomes[|outcomes| - 1]);
    }
  }

  lemma {:induction false} CountWinsBound(outcomes: seq<bool>)
    ensures CountWins(outcomes) <= |outcomes|
    decreases |outcomes|
  {
    if |outcomes| > 0 {
      CountWinsBound(outcomes[..|outcomes| - 1]);
    }
  }

  lemma {:induction false} TrailingWinsBound(outcomes: seq<bool>)
    ensures TrailingWins(outcomes) <= CountWins(outcomes)
    decreases |outcomes|
  {
    if |outcomes| > 0 {
      TrailingWinsBound(outcomes[..|outcomes| - 1]);
    }
  }
}

=== FILE: ui.dfy ===
/**
 * The game as the container wires it: price updates, clicks on the betting
 * and result panels, and timer callbacks, each reaching the store only
 * through the panel the current phase renders.
 */
module Ui {
  import opened Stats
  import opened GameStore
  import opened GameContainer
  import opened GameTimer
  import opened BettingButtons
  import opened GameResult
  import opened PriceFeed

  /** What the price hooks report at the moment of an event. */
  datatype Env = Env(livePrice: real, simulatedPrice: real, isConnected: bool)

  datatype UiEvent =
    | PriceSync
    | ClickBet(direction: Direction)
    | TimerCallback
    | ClickPlayAgain
    | ClickToggleSound
    | ClickToggleHaptic

  /** The timer's effect applied to the store: resolve at zero, otherwise count down. */
  function OnTimer(s: Store): (r: Store)
    ensures s.timeLeft <= 0 ==> r == HandleTimeUp(s)
    ensures s.timeLeft > 0 ==> r == SetTimeLeft(s, s.timeLeft - 1)
  {
    match TimerStep(s.timeLeft)
    case FireTimeUp => HandleTimeUp(s)
    case Decrement(next, _) => SetTimeLeft(s, next)
  }

  /**
   * One UI event. The price effect writes the displayed price to the store;
   * the header's settings toggles are always available; the game-area events
   * exist only while their panel is rendered and do nothing otherwise.
   */
  function UiStep(s: Store, env: Env, ev: UiEvent): Store
  {
    var panel := PanelFor(s.gameState);
    var shown := DisplayPrice(env.livePrice, env.simulatedPrice);
    match ev
    case PriceSync => SetCurrentPrice(s, shown)
    case ClickBet(d) =>
      if panel == BettingPanel then HandleBet(s, BettingDisabled(env.livePrice, env.isConnected), shown, d)
      else s
    case TimerCallback => if panel == TimerPanel then OnTimer(s) else s
    case ClickPlayAgain => if panel == ResultPanel then ResetGame(s) else s
    case ClickToggleSound => ToggleSound(s)
    case ClickToggleHaptic => ToggleHaptic(s)
  }

  /** What holds of every store the UI can reach. */
  predicate UiInv(s: Store)
  {
    && s.roundDuration == RoundDuration
    && s.gameState != Betting
    && (s.gameState == Idle ==> s.userBet == NoBet && s.timeLeft == 0)
    && (s.gameState == Playing ==> s.userBet.Placed? && 0 <= s.timeLeft <= s.roundDuration)
    && (s.gameState == Won || s.gameState == Lost ==> s.userBet.Placed? && s.timeLeft == 0)
    && (s.gameState == Won ==> s.stats.currentStreak >= 1)
    && (s.gameState == Lost ==> s.stats.currentStreak == 0)
    && Consistent(s.stats) && s.stats.currentStreak <= s.stats.wins
  }

  lemma InitialSatisfiesUiInv()
    ensures UiInv(Initial)
  {
  }

  /** Every UI event keeps the invariant. */
  lemma UiStepPreservesInv(s: Store, env: Env, ev: UiEvent)
    requires UiInv(s)
    ensures UiInv(UiStep(s, env, ev))
  {
    if ev.TimerCallback? && s.gameState == Playing && s.timeLeft <= 0 {
      UpdatePreservesConsistent(s.stats, IsWin(s.userBet, s.startPrice, s.currentPrice));
    }
  }

  /** The price effect writes the displayed price to the store and leaves the locked round alone. */
  lemma PriceSyncStoresDisplayedPrice(s: Store, env: Env)
    ensures var r := UiStep(s, env, PriceSync);
      && r.currentPrice == DisplayPrice(env.livePrice, env.simulatedPrice)
      && (env.livePrice > 0.0 ==> r.currentPrice == env.livePrice)
      && r.gameState == s.gameState && r.userBet == s.userBet && r.startPrice == s.startPrice
      && SameSession(r, s)
  {
  }

  /** At most one round at a time: outside IDLE a bet click never reaches `startGame`. */
  lemma AtMostOneRound(s: Store, env: Env, d: Direction)
    requires s.gameState != Idle
    ensures UiStep(s, env, ClickBet(d)) == s
  {
  }

  /** The UI never enters BETTING. */
  lemma NeverBetting(s: Store, env: Env, ev: UiEvent)
    requires s.gameState != Betting
    ensures UiStep(s, env, ev).gameState != Betting
  {
  }

  /** Once a round is playing, no event changes its bet or its locked price. */
  lemma LockedWhilePlaying(s: Store, env: Env, ev: UiEvent)
    requires s.gameState == Playing
    ensures UiStep(s, env, ev).userBet == s.userBet
    ensures UiStep(s, env, ev).startPrice == s.startPrice
  {
  }

  /**
   * A click in IDLE while the feed is live starts a round on the clicked
   * direction at the displayed price; while not live it does nothing.
   */
  lemma BetLocksDisplayedPrice(s: Store, env: Env, d: Direction)
    requires s.gameState == Idle
    ensures var r := UiStep(s, env, ClickBet(d));
      && (IsLive(env.livePrice, env.isConnected) ==>
            && r.gameState == Playing && r.userBet == Placed(d)
            && r.startPrice == DisplayPrice(env.livePrice, env.simulatedPrice)
            && r.timeLeft == s.roundDuration && r.stats == s.stats)
      && (!IsLive(env.livePrice, env.isConnected) ==> r == s)
  {
  }

  /** `n` timer callbacks with no other event in between. */
  function Ticks(s: Store, env: Env, n: nat): Store
  {
    if n == 0 then s else UiStep(Ticks(s, env, n - 1), env, TimerCallback)
  }

  /** A playing round with `t` seconds left counts down one second per callback. */
  lemma {:induction false} CountdownTicks(s: Store, env: Env, k: nat)
    requires s.gameState == Playing && k <= s.timeLeft
    ensures Ticks(s, env, k) == s.(timeLeft := s.timeLeft - k)
  {
    if k > 0 {
      CountdownTicks(s, env, k - 1);
    }
  }

  /**
   * From a bet in IDLE with a live feed and a synchronised price: ten
   * callbacks count the round down and it is still playing; the eleventh
   * resolves it with the rule applied to the locked and the final price. With
   * no price movement in between, that round is lost.
   */
  lemma RoundTakesTenCallbacks(s: Store, env: Env, d: Direction)
    requires UiInv(s) && s.gameState == Idle
    requires IsLive(env.livePrice, env.isConnected)
    requires s.currentPrice == DisplayPrice(env.livePrice, env.simulatedPrice)
    ensures var started := UiStep(s, env, ClickBet(d));
      && Ticks(started, env, RoundDuration as nat).gameState == Playing
      && Ticks(started, env, RoundDuration as nat).timeLeft == 0
      && Ticks(started, env, RoundDuration as nat + 1) ==
           HandleTimeUp(started.(timeLeft := 0))
      && Ticks(started, env, RoundDuration as nat + 1).gameState == Lost
  {
    var started := UiStep(s, env, ClickBet(d));
    CountdownTicks(started, env, RoundDuration as nat);
    FlatPriceLoses(started.(timeLeft := 0));
  }

  /**
   * A live round resolved by the timer is reported on the result panel with
   * the corrected points equal to the points the round added.
   */
  lemma ResolvedRoundReportsAward(s: Store, env: Env)
    requires UiInv(s) && s.gameState == Playing && s.timeLeft == 0
    ensures var r := UiStep(s, env, TimerCallback);
      && PanelFor(r.gameState) == ResultPanel
      && CorrectedPointsEarned(r) == r.stats.totalPoints - s.stats.totalPoints
  {
    CorrectedMatchesAwarded(s, IsWin(s.userBet, s.startPrice, s.currentPrice));
  }

  // ---------------------------------------------------------------------------
  // Re-runs of the timer effect once the countdown is at 0.

  /**
   * `n` runs of the timer effect with no check of the phase: the countdown
   * stays at 0 after `endGame`, so each run calls `onTimeUp` again.
   */
  function UnguardedRuns(s: Store, n: nat): Store
    decreases n
  {
    if n == 0 then s else UnguardedRuns(OnTimer(s), n - 1)
  }

  /** The timer effect checked against the phase: it acts only while PLAYING, as the rendered timer panel does. */
  function GuardedOnTimer(s: Store): Store
  {
    if s.gameState == Playing then OnTimer(s) else s
  }

  /** `n` runs of the phase-checked timer effect. */
  function GuardedRuns(s: Store, n: nat): Store
    decreases n
  {
    if n == 0 then s else GuardedRuns(GuardedOnTimer(s), n - 1)
  }

  /**
   * As written, neither `handleTimeUp` nor `endGame` checks the phase, so every
   * run of the effect at a countdown of 0 records the round once more.
   */
  lemma {:induction false} UnguardedRunsRecordEachTime(s: Store, n: nat)
    requires s.timeLeft <= 0
    ensures UnguardedRuns(s, n).stats.totalGames == s.stats.totalGames + n
    ensures UnguardedRuns(s, n).timeLeft == s.timeLeft
    decreases n
  {
    if n > 0 {
      UnguardedRunsRecordEachTime(OnTimer(s), n - 1);
    }
  }

  /** A store that is not PLAYING is a fixed point of the phase-checked effect. */
  lemma {:induction false} GuardedRunsIdle(s: Store, n: nat)
    requires s.gameState != Playing
    ensures GuardedRuns(s, n) == s
    decreases n
  {
    if n > 0 {
      GuardedRunsIdle(GuardedOnTimer(s), n - 1);
    }
  }

  /** With the phase check, any number of runs at 0 resolves the round exactly once. */
  lemma GuardedRunsRecordOnce(s: Store, n: nat)
    requires s.gameState == Playing && s.timeLeft <= 0 && n >= 1
    ensures GuardedRuns(s, n) == HandleTimeUp(s)
    ensures GuardedRuns(s, n).stats.totalGames == s.stats.totalGames + 1
  {
    GuardedRunsIdle(HandleTimeUp(s), n - 1);
  }

  /** The UI's timer callback is the phase-checked effect. */
  lemma UiTimerIsGuarded(s: Store, env: Env)
    ensures UiStep(s, env, TimerCallback) == GuardedOnTimer(s)
  {
  }

  /**
   * Once the feed has delivered a positive price, failed polls never take it
   * away, so the container stays live and betting stays enabled even after
   * the feed reports itself disconnected.
   */
  lemma {:induction false} FailuresKeepBettingEnabled(f: Feed, n: nat)
    requires f.data.price > 0.0
    ensures var g := FailMany(f, n);
      IsLive(g.data.price, g.isConnected) && !BettingDisabled(g.data.price, g.isConnected)
  {
    ConsecutiveFailures(f, n);
  }

  /** Until the first successful poll the feed is neither priced nor connected, so betting is disabled. */
  lemma NoPriceYetDisablesBetting(now: int, n: nat)
    ensures var g := FailMany(InitialFeed(now), n);
      BettingDisabled(g.data.price, g.isConnected)
  {
    ConsecutiveFailures(InitialFeed(now), n);
  }
}

=== FILE: wrappers.dfy ===
/** The `T | null` values of the source, as an explicit option type. */
module Wrappers {

  datatype Option<+T> = None | Some(value: T)
}
